=== FILE: README.md ===
# Trivia API: a Dafny model of the request-handling logic

The trivia backend is a small Flask application over a question/category
database. It has three pieces of logic, and this project models each of them
and proves properties about it:

- **pagination** (`paginate_questions`): the `page` query argument picks a
  block of ten questions by a Python slice, negative bounds included;
- **the route handlers** (`categories`, `all_questions`, `delete_question`,
  `create_question`, `question_search`, `question_sieve`,
  `question_generator`): pure functions from the database and the request to
  a `Response` (`Ok(payload)` or `Err(status)`), with the bare `except:` blocks
  that re-map one abort code into another;
- **the quiz selector**: the question pool, the `check_in_previous` scan and
  the rejection-sampling loop that redraws until it hits an unserved question.

Files:

- `model.dfy` (module `Model`): `Question`, `Category`, the `Store` (question
  table in primary-key order, category table, next key), `Valid` (ascending
  unique keys, all below the next key; unique category ids), the generic
  `Filter` for filtered queries, and the `Payload`/`Response`/`Outcome` types.
- `pagination.dfy` (module `Pagination`): Python's slice and `Paginate`.
- `quiz.dfy` (module `Quiz`): the pool, `CheckInPrevious`, the selection loop
  as a function (`SelectQuestion`) and as a loop (`ChooseQuestion`), and a
  corrected selector (`SelectFresh`).
- `handlers.dfy` (module `Handlers`): one function per route.

Abstractions:

- The database is a value. A request that makes a database call raise is a
  request with `fault = true`. This is what the bare `except:` blocks catch.
- `random.randrange(0, n, 1)` is an oracle. `draws` lists the indices it
  returns, in call order, and `DrawsFit` keeps each index below `n`. The loop
  has no bound on its redraws, so the selection can end `OutOfDraws`, meaning
  it was still redrawing when the oracle ended. The quiz handler then answers
  `None`. A loop that ends `OutOfDraws` for every oracle is a loop that never
  stops.
- `ilike` is a parameter `(term, text) -> bool`. It stands for the
  database's `ILIKE '%term%'` test.
- A question's formatted form carries every field, so `format()` is the
  identity on `Question`.

Two outcomes of the code that a reader might not expect, and one comparison it makes:

- Deleting a missing id answers 422, not 404. The inner `abort(404)` is
  caught by the bare `except`, which aborts with 422.
- An absent or empty search term answers 422, not 404, for the same reason.
- The quiz loop does not check "every pool question was served". It compares
  `len(previous_questions)` with the pool size, and only after a redraw.

## Model

| member | source | states |
|---|---|---|
| `Pagination.Paginate` | backend/flaskr/__init__.py:11-20 | a page holds at most 10 questions, all from the selection, and keeps the selection's ascending id order |
| `Pagination.PageContents` | backend/flaskr/__init__.py:12-18 | for page p >= 1 (1 when the argument is absent) the page is the contiguous block starting at (p-1)*10: ten items, fewer on the last page, none past the end |
| `Pagination.EveryQuestionOnItsPage` | backend/flaskr/__init__.py:12-18 | question i of the selection appears on page i/10+1 at position i%10, so the pages cover the whole selection |
| `Pagination.EmptyPageIff` | backend/flaskr/__init__.py:12-18 | exact condition for an empty page: p >= 1 empty iff (p-1)*10 >= length; page 0 (slice `[-10:0]`) always empty; a negative page empty iff length + 10p <= 0 |
| `Pagination.NegativePageCountsFromEnd` | backend/flaskr/__init__.py:12-18 | a negative page p is not rejected: it returns the up to ten items that end 10*abs(p) positions before the end of the selection |
| `Handlers.CategoryMap` | backend/flaskr/__init__.py:48 | the category dictionary's keys are exactly the category ids |
| `Handlers.CategoryMapSize` | backend/flaskr/__init__.py:48 | with unique category ids the dictionary has one entry per category |
| `Handlers.CategoryMapLabels` | backend/flaskr/__init__.py:48 | with unique category ids each id maps to its own category's type label |
| `Handlers.Categories` | backend/flaskr/__init__.py:46-57 | a database fault always gives 500; otherwise 404 exactly when there are no categories; on success `total_categories` equals the number of dictionary entries, and each id maps to its label |
| `Handlers.AllQuestions` | backend/flaskr/__init__.py:73-93 | a database fault always gives 500, because the queries run outside any `try`; otherwise 404 exactly when the requested page is empty; on success `total_questions` is the whole table's size, not the page's, and the questions are exactly the requested page of the key-ordered table (1 to 10 questions in ascending id order), with `categories` the id-to-label dictionary of all categories |
| `Handlers.QuestionsBeyondLastPage` | backend/flaskr/__init__.py:74-84 | for page p >= 1 the listing answers 404 exactly when (p-1)*10 >= number of questions |
| `Handlers.RemoveOne` | backend/flaskr/__init__.py:105-113 | removing an id present in a table of unique ids removes exactly one row |
| `Handlers.DeleteQuestion` | backend/flaskr/__init__.py:103-121 | success exactly when the id exists and no fault occurs; afterwards the id is gone, every other row is kept, `total_questions` is the remaining count, the key sequence is not moved back, so a deleted id is never handed out again, and the table stays valid; every failure, a missing id included, is 422 and leaves the database unchanged |
| `Handlers.CreateQuestion` | backend/flaskr/__init__.py:134-158 | the new question gets an id held by no existing question and is appended at the end of the key-ordered table; `total_questions` grows by one; the page is taken from the new table with no 404 check; a fault is 422 with the database unchanged |
| `Handlers.CreateThenDelete` | backend/flaskr/__init__.py:103-158 | deleting the question just created succeeds and gives back the original question table |
| `Handlers.QuestionSearch` | backend/flaskr/__init__.py:171-192 | success exactly when the term is present, non-empty and no fault occurs; every failure is 422; the result holds every question whose text matches and nothing else, with no repeats (ascending ids), and `total_questions` equals both the number returned and the number of matching rows |
| `Handlers.SearchWithoutMatches` | backend/flaskr/__init__.py:177-188 | a non-empty term matching nothing is a success with no questions and `total_questions` 0 |
| `Handlers.QuestionSieve` | backend/flaskr/__init__.py:204-222 | every failure is 404, an empty page and a fault alike; success exactly when no fault occurs and the category's page is non-empty; the questions are exactly the requested page of the category's questions, all of that category, and `total_questions` counts the whole category |
| `Handlers.Quizzes` | backend/flaskr/__init__.py:239-291 | 400 exactly when `quiz_category` or `previous_questions` is absent; otherwise 500 exactly when `quiz_category` has no `id`, a database fault occurs, or the pool is empty; a returned question is in the database, was not served, and has the requested category unless the id is 0 |
| `Handlers.QuizOverOnlyIf` | backend/flaskr/__init__.py:277-285 | the quiz-over response comes exactly when the first draw was already served, a redraw happens, and the served list is as long as the pool |
| `Handlers.QuizServesFirstFreshDraw` | backend/flaskr/__init__.py:276-291 | with no fault and a served list whose length differs from the pool's, the quiz serves the question of the first unserved draw, and keeps drawing until there is one |
| `Handlers.QuizEmptyCategoryFails` | backend/flaskr/__init__.py:262-265 | a category with no questions ends in 500, because `randrange(0, 0)` raises |
| `Handlers.EmptyCategoryEndsCorrectedQuiz` | backend/flaskr/__init__.py:262-265 | with the corrected selector, a category with no questions gets the quiz-over response instead of a 500 |
| `Handlers.QuizzesCorrected` | backend/flaskr/__init__.py:239-291 | with the corrected selector, 400 exactly when a field is absent, 500 exactly when the id is missing or a database fault occurs, and otherwise a success answer, even for an empty pool; the quiz is over exactly when every pool question was served, and otherwise returns an unserved pool question |
| `Quiz.Pool` | backend/flaskr/__init__.py:252-259 | for category 0 the pool is every question in ascending id order; otherwise it is exactly the questions of that category, in key order |
| `Quiz.CheckInPrevious` | backend/flaskr/__init__.py:268-274 | the scan reports true exactly when the id occurs in the served list |
| `Quiz.Redraw` | backend/flaskr/__init__.py:279-285 | any question the loop returns is in the pool and was not served; the exhausted response needs a served list as long as the pool |
| `Quiz.SelectQuestion` | backend/flaskr/__init__.py:262-291 | a returned question is an unserved pool member; exhausted implies the served list is as long as the pool; the selection raises exactly when the pool is empty |
| `Quiz.ChooseQuestion` | backend/flaskr/__init__.py:276-291 | the loop, with one membership scan per draw, computes the same outcome as `SelectQuestion` and returns only unserved pool questions |
| `Quiz.RedrawTakesFirstFresh` | backend/flaskr/__init__.py:279-285 | once inside the loop, with a served list shorter or longer than the pool, the loop returns the question of the first unserved draw |
| `Quiz.SelectTakesFirstFresh` | backend/flaskr/__init__.py:276-291 | unless the served list is as long as the pool, the result is the question of the first unserved draw, and the loop keeps drawing until there is one |
| `Quiz.ExhaustedIff` | backend/flaskr/__init__.py:277-285 | the selection is exhausted exactly when the pool is non-empty, the first draw was served, a second draw happens, and the served list is as long as the pool |
| `Quiz.NeverAnswersWhenAllServed` | backend/flaskr/__init__.py:279-285 | when every pool question was served but the served list's length differs from the pool's, no draw sequence ends the loop |
| `Quiz.RepeatedServedIdSpins` | backend/flaskr/__init__.py:279-285 | concrete case: a one-question pool with its id served twice never gets an answer |
| `Quiz.ForeignServedIdEndsQuizEarly` | backend/flaskr/__init__.py:280-285 | concrete case: pool ids 1 and 2, served list [1, 5] and a first draw of question 1 give the quiz-over response, although question 2 was never served |
| `Quiz.SelectFresh` | backend/flaskr/__init__.py:262-285 | the corrected selector always decides; it returns an unserved pool question, and it is exhausted exactly when every pool question was served |

## Findings

| source | as written | input that shows it | evidently intended | confidence | as-written member | corrected member |
|---|---|---|---|---|---|---|
| backend/flaskr/__init__.py:280-285 | the loop stops on a served draw only when `len(previous_questions) == total_questions` | one question with id 1 in the category and `previous_questions` [1, 1] (or every id of the category plus one from elsewhere) | answer "quiz over" once no unserved question is left | not executed; high | `Quiz.NeverAnswersWhenAllServed` | `Quiz.SelectFresh` |
| backend/flaskr/__init__.py:282 | the length comparison counts ids that are not in the pool | pool ids 1 and 2, `previous_questions` [1, 5], first draw question 1 | keep drawing until question 2 is drawn | not executed; high | `Quiz.ForeignServedIdEndsQuizEarly` | `Quiz.SelectFresh` |
| backend/flaskr/__init__.py:263 | `random.randrange(0, 0, 1)` raises on an empty pool, so the request ends in 500 | `quiz_category` id of a category with no questions | report the quiz as over, because there is nothing to serve | not executed; medium | `Handlers.QuizEmptyCategoryFails` | `Handlers.QuizzesCorrected` |

`Handlers.Quizzes` models the code as written. `Handlers.QuizzesCorrected` is
the same handler with `Quiz.SelectFresh` in place of the loop. `SelectFresh`
draws only among the unserved pool questions, so it needs one draw and always
decides.

## Left out

- Flask routing, `jsonify`, CORS setup and the `after_request` headers are framework plumbing and are not modelled.
- The 405 handler is not modelled. The framework's router raises 405, not this code.
- The other error handlers only wrap a status code into an envelope, so each is represented by its code in `Err(code)`.
- SQLAlchemy query execution, `setup_db`, and the `insert`/`delete` persistence are not modelled. The database is the `Store` value. New ids come from the key counter `nextId`, so they are larger than every existing id.
- Queries without `order_by` (search, category filter, category pool) have no defined order in SQL. The model returns them in key order.
- A database fault is modelled as atomic: the request leaves the database unchanged.
- A request without a JSON body is not modelled. There `request.get_json()` gives `None` and `body.get` raises. The body is assumed to be a JSON object.
- Create with missing or ill-typed fields is not modelled directly. Whether the insert then fails depends on `models.py` and the database schema. That file is not part of this model. Such a failure is the `fault` case, which answers 422.
- `ilike` semantics (LIKE wildcards in the term, case folding) are abstracted into the `ilike` parameter.
- The randomness of `random.randrange` is not modelled. Draws are arbitrary in-range indices, so nothing is stated about their distribution.
- The non-termination of the quiz loop is stated over finite oracles. `OutOfDraws` / `None` means "not answered within these draws". `Quiz.NeverAnswersWhenAllServed` says this holds for every oracle.
- `previous_questions` holding non-integers, or not being a list, is not modelled. The served list is a `seq<int>`.
- A `quiz_category` that is not an object, or has no `id` key, is modelled as `QuizCategory(None)`, which answers 500. Other `id` types are not modelled.
- `Handlers.QuestionSearch`: its contract states ascending id order. That order is the model's choice: the search query has no `order_by`, so the database leaves the order undefined.
- The constant `'current_category': None` of the listing and search responses is not a field of `QuestionPage` or `SearchResults`. It carries no information.
- A `searchTerm` that is not a string is not modelled. The term is an `Option<string>`. In the code, a falsy non-string such as `0` or `false` answers 422, and a number such as `5` runs a search for `%5%`.
- The page computed and thrown away inside `delete_question` has no effect, so it is not modelled.

=== FILE: handlers.dfy ===
/**
 The decision logic of the route handlers: which response each request gets
 and what it leaves in the database.

 `fault` stands for a database call that raises while the request is served.
 Where the handler wraps its work in `try: ... except: abort(code)`, that
 exception, and any `abort` raised inside the `try`, come out as `code`; where
 it does not, the exception is uncaught and the error handler answers 500.
 */
module Handlers {
  import opened Model
  import opened Pagination
  import opened Quiz

  /** `{category.id: category.type for category in categories}`; a later row overwrites an earlier one with the same id. */
  function CategoryMap(cs: seq<Category>): (m: map<int, string>)
    ensures m.Keys == set c | c in cs :: c.id
    decreases |cs|
  {
    if |cs| == 0 then map[]
    else
      var init := cs[..|cs| - 1];
      var last := cs[|cs| - 1];
      assert cs == init + [last];
      CategoryMap(init)[last.id := last.kind]
  }

  /** With unique category ids the map has one entry per category. */
  lemma {:induction false} CategoryMapSize(cs: seq<Category>)
    requires CategoryIdsUnique(cs)
    ensures |CategoryMap(cs)| == |cs|
    decreases |cs|
  {
    if |cs| > 0 {
      var init := cs[..|cs| - 1];
      var last := cs[|cs| - 1];
      assert CategoryIdsUnique(init);
      CategoryMapSize(init);
      forall c | c in init
        ensures c.id != last.id
      {
        var i :| 0 <= i < |init| && init[i] == c;
        assert cs[i] == c;
      }
      assert last.id !in CategoryMap(init);
    }
  }

  /** With unique category ids every category's id maps to its own label. */
  lemma {:induction false} CategoryMapLabels(cs: seq<Category>)
    requires CategoryIdsUnique(cs)
    ensures forall i :: 0 <= i < |cs| ==> CategoryMap(cs)[cs[i].id] == cs[i].kind
    decreases |cs|
  {
    if |cs| > 0 {
      var init := cs[..|cs| - 1];
      var last := cs[|cs| - 1];
      assert CategoryIdsUnique(init);
      CategoryMapLabels(init);
      forall i | 0 <= i < |cs| - 1
        ensures CategoryMap(cs)[cs[i].id] == cs[i].kind
      {
        assert init[i] == cs[i];
        assert cs[i].id != last.id;
      }
    }
  }

  /** `GET /categories`. */
  function Categories(store: Store, fault: bool): (r: Response)
    ensures r.Err? <==> fault || |store.categories| == 0
    ensures r.Err? ==> r.code == (if fault then InternalServerError else NotFound)
    ensures r.Ok? ==> r.payload.CategoryList?
    ensures r.Ok? ==> r.payload.categories.Keys == set c | c in store.categories :: c.id
    ensures r.Ok? && Valid(store) ==> r.payload.totalCategories == |r.payload.categories|
    ensures r.Ok? && Valid(store) ==> forall c :: c in store.categories ==> r.payload.categories[c.id] == c.kind
  {
    assert Valid(store) ==> |CategoryMap(store.categories)| == |store.categories| by {
      if Valid(store) {
        CategoryMapSize(store.categories);
      }
    }
    assert Valid(store) ==> forall c :: c in store.categories ==> CategoryMap(store.categories)[c.id] == c.kind by {
      if Valid(store) {
        CategoryMapLabels(store.categories);
      }
    }
    if fault then Err(InternalServerError)
    else if |store.categories| == 0 then Err(NotFound)
    else Ok(CategoryList(CategoryMap(store.categories), |store.categories|))
  }

  /** `GET /questions?page=N`. */
  function AllQuestions(store: Store, page: Option<int>, fault: bool): (r: Response)
    ensures fault ==> r == Err(InternalServerError)
    ensures r.Err? ==> r.code == (if fault then InternalServerError else NotFound)
    ensures !fault ==> (r.Err? <==> Paginate(store.questions, page) == [])
    ensures r.Ok? ==> r.payload.QuestionPage?
    ensures r.Ok? ==> r.payload.totalQuestions == |store.questions|
    ensures r.Ok? ==> 1 <= |r.payload.questions| <= QuestionsPerPage
    ensures r.Ok? ==> forall q :: q in r.payload.questions ==> q in store.questions
    ensures r.Ok? && Valid(store) ==> IdsAscending(r.payload.questions)
    ensures r.Ok? ==> r.payload.questions == Paginate(store.questions, page)
    ensures r.Ok? ==> r.payload.categories == CategoryMap(store.categories)
  {
    if fault then Err(InternalServerError)
    else
      var current := Paginate(store.questions, page);
      if |current| == 0 then Err(NotFound)
      else Ok(QuestionPage(current, |store.questions|, CategoryMap(store.categories)))
  }

  /** A page p >= 1 of the question listing is answered with 404 exactly when it starts at or past the last question. */
  lemma QuestionsBeyondLastPage(store: Store, page: Option<int>)
    requires PageNumber(page) >= 1
    ensures AllQuestions(store, page, false) == Err(NotFound) <==>
              |store.questions| <= (PageNumber(page) - 1) * QuestionsPerPage
  {
    EmptyPageIff(store.questions, page);
  }

  function WithoutId(questionId: int): Question -> bool {
    (q: Question) => q.id != questionId
  }

  /** Removing one id from a list with ascending ids that holds it shortens the list by one. */
  lemma {:induction false} RemoveOne(qs: seq<Question>, questionId: int)
    requires IdsAscending(qs)
    requires questionId in Ids(qs)
    ensures |Filter(qs, WithoutId(questionId))| == |qs| - 1
    decreases |qs|
  {
    if qs[0].id == questionId {
      forall q | q in qs[1..]
        ensures WithoutId(questionId)(q)
      {
        var m :| 0 <= m < |qs[1..]| && qs[1..][m] == q;
        assert qs[1 + m] == q;
      }
      FilterKeepsAll(qs[1..], WithoutId(questionId));
    } else {
      var q :| q in qs && q.id == questionId;
      assert q in qs[1..];
      RemoveOne(qs[1..], questionId);
    }
  }

  /**
   `DELETE /questions/<id>`. A missing id aborts with 404 inside the `try`, and
   the bare `except` turns that into 422.
   */
  function DeleteQuestion(store: Store, questionId: int, fault: bool): (o: Outcome)
    requires Valid(store)
    ensures o.response.Err? ==> o.response.code == Unprocessable && o.store == store
    ensures o.response.Ok? <==> !fault && questionId in Ids(store.questions)
    ensures o.response.Ok? ==> o.response.payload == Deleted(questionId, |o.store.questions|)
    ensures o.response.Ok? ==> questionId !in Ids(o.store.questions)
    ensures o.response.Ok? ==> forall q :: q in o.store.questions <==> q in store.questions && q.id != questionId
    ensures o.response.Ok? ==> |o.store.questions| == |store.questions| - 1
    ensures o.response.Ok? ==> o.store.categories == store.categories
    ensures o.store.nextId == store.nextId
    ensures Valid(o.store)
  {
    if fault || questionId !in Ids(store.questions) then Outcome(Err(Unprocessable), store)
    else
      var remaining := Filter(store.questions, WithoutId(questionId));
      RemoveOne(store.questions, questionId);
      Outcome(Ok(Deleted(questionId, |remaining|)), store.(questions := remaining))
  }

  /** The body of `POST /questions`. */
  datatype NewQuestion = NewQuestion(question: string, answer: string, difficulty: int, category: int)

  /**
   `POST /questions?page=N`: insert the question under the next key, then answer
   with the requested page of the new listing (an empty page is not an error here).
   */
  function CreateQuestion(store: Store, body: NewQuestion, page: Option<int>, fault: bool): (o: Outcome)
    requires Valid(store)
    ensures fault ==> o == Outcome(Err(Unprocessable), store)
    ensures !fault ==> o.response.Ok? && o.response.payload.Created?
    ensures o.response.Ok? ==>
              var id := o.response.payload.created;
              && id !in Ids(store.questions)
              && o.store.questions == store.questions + [Question(id, body.question, body.answer, body.difficulty, body.category)]
              && o.response.payload.totalQuestions == |store.questions| + 1
              && o.response.payload.questions == Paginate(o.store.questions, page)
    ensures o.store.categories == store.categories
    ensures Valid(o.store)
  {
    if fault then Outcome(Err(Unprocessable), store)
    else
      var created := Question(store.nextId, body.question, body.answer, body.difficulty, body.category);
      var questions := store.questions + [created];
      var store' := Store(questions, store.categories, store.nextId + 1);
      Outcome(Ok(Created(created.id, Paginate(questions, page), |questions|)), store')
  }

  /** Deleting the question just created gives back the original question table. */
  lemma CreateThenDelete(store: Store, body: NewQuestion, page: Option<int>)
    requires Valid(store)
    ensures var after := CreateQuestion(store, body, page, false);
            var undone := DeleteQuestion(after.store, after.response.payload.created, false);
            && undone.response.Ok?
            && undone.store.questions == store.questions
  {
    var after := CreateQuestion(store, body, page, false);
    var id := after.response.payload.created;
    var q := after.store.questions[|store.questions|];
    assert after.store.questions == store.questions + [q];
    assert q in after.store.questions;
    forall x | x in store.questions
      ensures WithoutId(id)(x)
    {
      var m :| 0 <= m < |store.questions| && store.questions[m] == x;
    }
    FilterAppend(store.questions, [q], WithoutId(id));
    FilterKeepsAll(store.questions, WithoutId(id));
    assert Filter([q], WithoutId(id)) == [];
  }

  /** `if search_term:`, a present and non-empty term. */
  predicate Truthy(term: Option<string>) {
    term.Some? && |term.value| > 0
  }

  /** `ilike(pattern, text)`: the database's case-insensitive LIKE test of `%term%` against a question's text. */
  type Matcher = (string, string) -> bool

  function Matching(ilike: Matcher, term: string): Question -> bool {
    (q: Question) => ilike(term, q.question)
  }

  /**
   `POST /questions/search`. An absent or empty term aborts with 404 inside the
   `try`, which the bare `except` turns into 422.
   */
  function QuestionSearch(store: Store, searchTerm: Option<string>, ilike: Matcher, fault: bool): (r: Response)
    ensures r.Err? ==> r.code == Unprocessable
    ensures r.Ok? <==> Truthy(searchTerm) && !fault
    ensures r.Ok? ==> r.payload.SearchResults?
    ensures r.Ok? ==> r.payload.totalQuestions == |r.payload.questions|
    ensures r.Ok? ==> forall q :: q in r.payload.questions <==> q in store.questions && ilike(searchTerm.value, q.question)
    ensures r.Ok? && Valid(store) ==> IdsAscending(r.payload.questions)
    ensures r.Ok? && Valid(store) ==>
              r.payload.totalQuestions == |set q | q in store.questions && ilike(searchTerm.value, q.question)|
  {
    if !Truthy(searchTerm) || fault then Err(Unprocessable)
    else
      var selection := Filter(store.questions, Matching(ilike, searchTerm.value));
      assert Valid(store) ==> |selection| == |set q | q in store.questions && ilike(searchTerm.value, q.question)| by {
        if Valid(store) {
          DistinctCount(selection);
          assert (set q | q in selection) == (set q | q in store.questions && ilike(searchTerm.value, q.question));
        }
      }
      Ok(SearchResults(selection, |selection|))
  }

  /** A term that matches nothing is a success with no questions, not an error. */
  lemma SearchWithoutMatches(store: Store, term: string, ilike: Matcher)
    requires |term| > 0
    requires forall q :: q in store.questions ==> !ilike(term, q.question)
    ensures QuestionSearch(store, Some(term), ilike, false) == Ok(SearchResults([], 0))
  {
    FilterKeepsNone(store.questions, Matching(ilike, term));
  }

  /**
   `GET /categories/<id>/questions?page=N`. Both an empty page and a fault end
   in the bare `except`, which aborts with 404.
   */
  function QuestionSieve(store: Store, categoryId: int, page: Option<int>, fault: bool): (r: Response)
    ensures r.Err? ==> r.code == NotFound
    ensures r.Ok? <==> !fault && Paginate(Filter(store.questions, InCategory(categoryId)), page) != []
    ensures r.Ok? ==> r.payload.CategoryQuestions? && r.payload.currentCategory == categoryId
    ensures r.Ok? ==> forall q :: q in r.payload.questions ==> q in store.questions && q.category == categoryId
    ensures r.Ok? ==> r.payload.questions == Paginate(Filter(store.questions, InCategory(categoryId)), page)
    ensures r.Ok? && Valid(store) ==>
              r.payload.totalQuestions == |set q | q in store.questions && q.category == categoryId|
  {
    if fault then Err(NotFound)
    else
      var selection := Filter(store.questions, InCategory(categoryId));
      var current := Paginate(selection, page);
      if |current| == 0 then Err(NotFound)
      else
        assert Valid(store) ==> |selection| == |set q | q in store.questions && q.category == categoryId| by {
          if Valid(store) {
            DistinctCount(selection);
            assert (set q | q in selection) == (set q | q in store.questions && q.category == categoryId);
          }
        }
        Ok(CategoryQuestions(current, |selection|, categoryId))
  }

  /** The `quiz_category` object of a quiz request; `id` is None when the object has no `id` key. */
  datatype QuizCategory = QuizCategory(id: Option<int>)

  /** The draws fit the pool whenever the request gets as far as building one. */
  predicate QuizDrawsFit(store: Store, quizCategory: Option<QuizCategory>, draws: seq<nat>) {
    quizCategory.Some? && quizCategory.value.id.Some? ==>
      DrawsFit(draws, |Pool(store.questions, quizCategory.value.id.value)|)
  }

  /**
   `POST /quizzes`. None means the handler is still redrawing when `draws` ends.
   */
  function Quizzes(store: Store, quizCategory: Option<QuizCategory>, previous: Option<seq<int>>,
                   fault: bool, draws: seq<nat>): (r: Option<Response>)
    requires QuizDrawsFit(store, quizCategory, draws)
    ensures r == Some(Err(BadRequest)) <==> quizCategory.None? || previous.None?
    ensures r == Some(Err(InternalServerError)) <==>
              && quizCategory.Some? && previous.Some?
              && (quizCategory.value.id.None? || fault || |Pool(store.questions, quizCategory.value.id.value)| == 0)
    ensures r.Some? && r.value.Err? ==> r.value.code in {BadRequest, InternalServerError}
    ensures r.Some? && r.value.Ok? ==> r.value.payload.QuizQuestion? || r.value.payload.QuizOver?
    ensures r.Some? && r.value.Ok? && r.value.payload.QuizQuestion? ==>
              && previous.Some? && quizCategory.Some? && quizCategory.value.id.Some?
              && r.value.payload.question in store.questions
              && r.value.payload.question.id !in previous.value
              && (quizCategory.value.id.value != 0 ==> r.value.payload.question.category == quizCategory.value.id.value)
  {
    if quizCategory.None? || previous.None? then Some(Err(BadRequest))
    else if quizCategory.value.id.None? || fault then Some(Err(InternalServerError))
    else
      var pool := Pool(store.questions, quizCategory.value.id.value);
      match SelectQuestion(pool, previous.value, draws)
      case Drawn(q) => Some(Ok(QuizQuestion(q)))
      case Exhausted => Some(Ok(QuizOver))
      case EmptyPool => Some(Err(InternalServerError))
      case OutOfDraws => None
  }

  /**
   The quiz-over response comes only when the first draw was already served and
   as many ids were served as the category holds questions.
   */
  lemma QuizOverOnlyIf(store: Store, categoryId: int, previous: seq<int>, draws: seq<nat>)
    requires DrawsFit(draws, |Pool(store.questions, categoryId)|)
    ensures var pool := Pool(store.questions, categoryId);
            Quizzes(store, Some(QuizCategory(Some(categoryId))), Some(previous), false, draws) == Some(Ok(QuizOver)) <==>
              && |pool| > 0
              && |draws| >= 2
              && pool[draws[0]].id in previous
              && |previous| == |pool|
  {
    ExhaustedIff(Pool(store.questions, categoryId), previous, draws);
  }

  /**
   Unless as many ids were served as the category holds questions, the quiz
   serves the question of the first unserved draw, or is still drawing when the
   draws end.
   */
  lemma QuizServesFirstFreshDraw(store: Store, categoryId: int, previous: seq<int>, draws: seq<nat>)
    requires DrawsFit(draws, |Pool(store.questions, categoryId)|)
    requires |Pool(store.questions, categoryId)| > 0
    requires |previous| != |Pool(store.questions, categoryId)|
    ensures var pool := Pool(store.questions, categoryId);
            var j := FirstFresh(pool, previous, draws);
            Quizzes(store, Some(QuizCategory(Some(categoryId))), Some(previous), false, draws) ==
              if j < |draws| then Some(Ok(QuizQuestion(pool[draws[j]]))) else None
  {
    SelectTakesFirstFresh(Pool(store.questions, categoryId), previous, draws);
  }

  /** A category without questions makes `randrange(0, 0)` raise: the request ends in 500. */
  lemma QuizEmptyCategoryFails(store: Store, categoryId: int, previous: seq<int>, draws: seq<nat>)
    requires Pool(store.questions, categoryId) == []
    requires DrawsFit(draws, 0)
    ensures Quizzes(store, Some(QuizCategory(Some(categoryId))), Some(previous), false, draws) == Some(Err(InternalServerError))
  {
  }

  /** The quiz handler with the corrected selection (`SelectFresh`). */
  function QuizzesCorrected(store: Store, quizCategory: Option<QuizCategory>, previous: Option<seq<int>>,
                            fault: bool, draw: nat): (r: Response)
    requires quizCategory.Some? && quizCategory.value.id.Some? && previous.Some? ==>
               var left := Unserved(Pool(store.questions, quizCategory.value.id.value), previous.value);
               draw < |left| || |left| == 0
    ensures r == Err(BadRequest) <==> quizCategory.None? || previous.None?
    ensures r == Err(InternalServerError) <==>
              quizCategory.Some? && previous.Some? && (quizCategory.value.id.None? || fault)
    ensures r.Ok? <==> quizCategory.Some? && quizCategory.value.id.Some? && previous.Some? && !fault
    ensures r.Ok? ==>
              var pool := Pool(store.questions, quizCategory.value.id.value);
              && (r.payload.QuizQuestion? || r.payload.QuizOver?)
              && (r.payload.QuizOver? <==> forall q :: q in pool ==> q.id in previous.value)
              && (r.payload.QuizQuestion? ==> r.payload.question in pool && r.payload.question.id !in previous.value)
  {
    if quizCategory.None? || previous.None? then Err(BadRequest)
    else if quizCategory.value.id.None? || fault then Err(InternalServerError)
    else
      var pool := Pool(store.questions, quizCategory.value.id.value);
      match SelectFresh(pool, previous.value, draw)
      case Drawn(q) => Ok(QuizQuestion(q))
      case Exhausted => Ok(QuizOver)
  }

  /** With the corrected selection a category without questions ends the quiz instead of failing. */
  lemma EmptyCategoryEndsCorrectedQuiz(store: Store, categoryId: int, previous: seq<int>)
    requires Pool(store.questions, categoryId) == []
    ensures QuizzesCorrected(store, Some(QuizCategory(Some(categoryId))), Some(previous), false, 0) == Ok(QuizOver)
  {
  }
}

=== FILE: model.dfy ===
/**
 The data the trivia API works on: question and category rows, the database
 that holds them, and the JSON responses the route handlers produce.
 */
module Model {

  datatype Option<+T> = None | Some(value: T)

  /** Number of questions on one page of a listing. */
  const QuestionsPerPage: nat := 10

  /** HTTP status codes the handlers abort with. */
  const BadRequest: int := 400
  const NotFound: int := 404
  const Unprocessable: int := 422
  const InternalServerError: int := 500

  /** One question row. Its formatted (JSON) form carries all of these fields. */
  datatype Question = Question(id: int, question: string, answer: string, difficulty: int, category: int)

  /** One category row; `kind` is the category's `type` label. */
  datatype Category = Category(id: int, kind: string)

  /**
   The database. `questions` is the question table read in primary-key order,
   `categories` the category table, and `nextId` the next value the table's
   key sequence hands out.
   */
  datatype Store = Store(questions: seq<Question>, categories: seq<Category>, nextId: int)

  predicate IdsAscending(qs: seq<Question>) {
    forall i, j :: 0 <= i < j < |qs| ==> qs[i].id < qs[j].id
  }

  predicate CategoryIdsUnique(cs: seq<Category>) {
    forall i, j :: 0 <= i < j < |cs| ==> cs[i].id != cs[j].id
  }

  /** What the database guarantees: primary keys are unique and were all handed out by the key sequence. */
  predicate Valid(s: Store) {
    && IdsAscending(s.questions)
    && (forall i :: 0 <= i < |s.questions| ==> s.questions[i].id < s.nextId)
    && CategoryIdsUnique(s.categories)
  }

  function Ids(qs: seq<Question>): set<int> {
    set q | q in qs :: q.id
  }

  /** The rows of `qs` that satisfy `keep`, in their original order (a filtered query). */
  function Filter(qs: seq<Question>, keep: Question -> bool): (r: seq<Question>)
    ensures |r| <= |qs|
    ensures forall q :: q in r <==> q in qs && keep(q)
    ensures IdsAscending(qs) ==> IdsAscending(r)
    decreases |qs|
  {
    if |qs| == 0 then []
    else if keep(qs[0]) then
      var rest := Filter(qs[1..], keep);
      assert IdsAscending(qs) ==> forall k :: 0 <= k < |rest| ==> qs[0].id < rest[k].id by {
        if IdsAscending(qs) {
          forall k | 0 <= k < |rest|
            ensures qs[0].id < rest[k].id
          {
            assert rest[k] in qs[1..];
            var m :| 0 <= m < |qs[1..]| && qs[1..][m] == rest[k];
            assert qs[1 + m] == rest[k];
          }
        }
      }
      [qs[0]] + rest
    else Filter(qs[1..], keep)
  }

  /** Filtering a list whose every row passes leaves it unchanged. */
  lemma {:induction false} FilterKeepsAll(qs: seq<Question>, keep: Question -> bool)
    requires forall q :: q in qs ==> keep(q)
    ensures Filter(qs, keep) == qs
    decreases |qs|
  {
    if |qs| > 0 {
      FilterKeepsAll(qs[1..], keep);
    }
  }

  /** Filtering a list none of whose rows passes gives the empty list. */
  lemma {:induction false} FilterKeepsNone(qs: seq<Question>, keep: Question -> bool)
    requires forall q :: q in qs ==> !keep(q)
    ensures Filter(qs, keep) == []
    decreases |qs|
  {
    if |qs| > 0 {
      FilterKeepsNone(qs[1..], keep);
    }
  }

  /** Filtering distributes over concatenation. */
  lemma {:induction false} FilterAppend(a: seq<Question>, b: seq<Question>, keep: Question -> bool)
    ensures Filter(a + b, keep) == Filter(a, keep) + Filter(b, keep)
    decreases |a|
  {
    if |a| == 0 {
      assert a + b == b;
    } else {
      assert (a + b)[1..] == a[1..] + b;
      FilterAppend(a[1..], b, keep);
    }
  }

  /** Rows with ascending ids are distinct, so the list is as long as the set of its rows. */
  lemma {:induction false} DistinctCount(qs: seq<Question>)
    requires IdsAscending(qs)
    ensures |set q | q in qs| == |qs|
    decreases |qs|
  {
    if |qs| > 0 {
      DistinctCount(qs[1..]);
      assert (set q | q in qs) == {qs[0]} + (set q | q in qs[1..]);
      assert qs[0] !in qs[1..];
    }
  }

  /** The fields of a JSON response with `success: True`, one variant per route. */
  datatype Payload =
    | CategoryList(categories: map<int, string>, totalCategories: nat)
    | QuestionPage(questions: seq<Question>, totalQuestions: nat, categories: map<int, string>)
    | Deleted(deleted: int, totalQuestions: nat)
    | Created(created: int, questions: seq<Question>, totalQuestions: nat)
    | SearchResults(questions: seq<Question>, totalQuestions: nat)
    | CategoryQuestions(questions: seq<Question>, totalQuestions: nat, currentCategory: int)
    | QuizQuestion(question: Question)
    | QuizOver

  /** A handler's answer: a success envelope or the error envelope of an abort. */
  datatype Response = Ok(payload: Payload) | Err(code: int)

  /** A handler's answer together with the database it leaves behind. */
  datatype Outcome = Outcome(response: Response, store: Store)
}

=== FILE: pagination.dfy ===
/**
 The pagination helper: the `page` query argument selects a block of ten
 formatted questions by a Python slice of the whole selection.
 */
module Pagination {
  import opened Model

  /** The requested page; 1 when the argument is absent or not an integer. */
  function PageNumber(arg: Option<int>): int {
    match arg
    case Some(p) => p
    case None => 1
  }

  /** A slice bound as Python normalises it for step 1: a negative bound counts from the end, and the result is clamped to [0, n]. */
  function SliceBound(i: int, n: nat): (b: nat)
    ensures b <= n
  {
    if i < 0 then (if n + i < 0 then 0 else n + i)
    else if i > n then n
    else i
  }

  /** Python's `s[start:stop]`. */
  function Slice<T>(s: seq<T>, start: int, stop: int): (r: seq<T>)
    ensures |r| <= |s|
    ensures forall x :: x in r ==> x in s
  {
    var lo := SliceBound(start, |s|);
    var hi := SliceBound(stop, |s|);
    if lo < hi then s[lo..hi] else []
  }

  /** `paginate_questions`: the page of the formatted selection named by `page`. */
  function Paginate(selection: seq<Question>, page: Option<int>): (r: seq<Question>)
    ensures |r| <= QuestionsPerPage
    ensures forall q :: q in r ==> q in selection
    ensures IdsAscending(selection) ==> IdsAscending(r)
  {
    var start := (PageNumber(page) - 1) * QuestionsPerPage;
    Slice(selection, start, start + QuestionsPerPage)
  }

  /**
   For a page p >= 1 the result is the block of the selection that starts at
   position (p-1)*10: ten items, or fewer on the last page, or none past it.
   */
  lemma PageContents(selection: seq<Question>, page: Option<int>)
    requires PageNumber(page) >= 1
    ensures var start := (PageNumber(page) - 1) * QuestionsPerPage;
            var r := Paginate(selection, page);
            && |r| == (if |selection| <= start then 0
                       else if |selection| - start < QuestionsPerPage then |selection| - start
                       else QuestionsPerPage)
            && forall k :: 0 <= k < |r| ==> r[k] == selection[start + k]
  {
  }

  /** Every question of the selection sits on page i/10 + 1, at position i%10. */
  lemma EveryQuestionOnItsPage(selection: seq<Question>, i: int)
    requires 0 <= i < |selection|
    ensures var page := Paginate(selection, Some(i / QuestionsPerPage + 1));
            && i % QuestionsPerPage < |page|
            && page[i % QuestionsPerPage] == selection[i]
  {
    PageContents(selection, Some(i / QuestionsPerPage + 1));
  }

  /**
   When a page is empty: for p >= 1 exactly when it starts at or past the end;
   page 0 always (its slice is `[-10:0]`); a negative page when the block it
   names, which ends 10*|p| items before the end, lies before the start.
   */
  lemma EmptyPageIff(selection: seq<Question>, page: Option<int>)
    ensures var p := PageNumber(page);
            Paginate(selection, page) == [] <==>
              if p >= 1 then |selection| <= (p - 1) * QuestionsPerPage
              else p == 0 || |selection| + p * QuestionsPerPage <= 0
  {
  }

  /**
   A negative page p counts from the end of the selection: its items are the
   (at most ten) items that end 10*|p| positions before the end.
   */
  lemma NegativePageCountsFromEnd(selection: seq<Question>, page: Option<int>)
    requires PageNumber(page) < 0
    ensures var stop := |selection| + PageNumber(page) * QuestionsPerPage;
            var r := Paginate(selection, page);
            && |r| == (if stop <= 0 then 0 else if stop < QuestionsPerPage then stop else QuestionsPerPage)
            && forall k :: 0 <= k < |r| ==> r[k] == selection[stop - |r| + k]
  {
  }
}

=== FILE: quiz.dfy ===
/**
 The quiz selector behind `POST /quizzes`: the pool of eligible questions, the
 membership test against the previously served ids, and the rejection-sampling
 loop that redraws until it hits an unserved question.

 `random.randrange(0, n, 1)` is an oracle here: `draws` lists the indices it
 returns, in call order. The loop has no bound on its redraws, so a finite
 oracle may run out before the loop stops; that outcome is `OutOfDraws`, and a
 loop that stops for no finite oracle is one that never stops.
 */
module Quiz {
  import opened Model

  /** How one run of the selection loop ends. */
  datatype Selection =
    | Drawn(question: Question)   // an unserved question was drawn and is returned
    | Exhausted                   // the `{'success': True}` response with no question
    | EmptyPool                   // `randrange(0, 0)` raised on the first draw
    | OutOfDraws                  // still redrawing when the oracle ended

  /** Every draw is an index that `randrange(0, n)` can return. */
  predicate DrawsFit(draws: seq<nat>, n: nat) {
    forall k :: 0 <= k < |draws| ==> draws[k] < n
  }

  function InCategory(categoryId: int): Question -> bool {
    (q: Question) => q.category == categoryId
  }

  /**
   The eligible questions: every question in key order for category id 0,
   otherwise the questions of that category.
   */
  function Pool(questions: seq<Question>, categoryId: int): (pool: seq<Question>)
    ensures categoryId == 0 ==> pool == questions
    ensures categoryId != 0 ==> forall q :: q in pool <==> q in questions && q.category == categoryId
    ensures IdsAscending(questions) ==> IdsAscending(pool)
  {
    if categoryId == 0 then questions else Filter(questions, InCategory(categoryId))
  }

  /** `check_in_previous`: whether `id` occurs in the list of served ids. */
  method CheckInPrevious(previous: seq<int>, id: int) returns (beenUsed: bool)
    ensures beenUsed <==> id in previous
  {
    beenUsed := false;
    for i := 0 to |previous|
      invariant beenUsed <==> id in previous[..i]
    {
      assert previous[..i + 1] == previous[..i] + [previous[i]];
      if previous[i] == id {
        beenUsed := true;
      }
    }
    assert previous[..|previous|] == previous;
  }

  /**
   The `while` loop entered with `question` already drawn: while it was served,
   draw again, and give up with the exhausted response if as many ids were
   served as the pool holds.
   */
  function Redraw(pool: seq<Question>, previous: seq<int>, question: Question, draws: seq<nat>): (r: Selection)
    requires DrawsFit(draws, |pool|)
    requires question in pool
    ensures r.Drawn? ==> r.question in pool && r.question.id !in previous
    ensures r.Exhausted? ==> |previous| == |pool|
    ensures !r.EmptyPool?
    decreases |draws|
  {
    if question.id !in previous then Drawn(question)
    else if |draws| == 0 then OutOfDraws
    else if |previous| == |pool| then Exhausted
    else Redraw(pool, previous, pool[draws[0]], draws[1..])
  }

  /** The whole selection: the first draw, then the loop. */
  function SelectQuestion(pool: seq<Question>, previous: seq<int>, draws: seq<nat>): (r: Selection)
    requires DrawsFit(draws, |pool|)
    ensures r.Drawn? ==> r.question in pool && r.question.id !in previous
    ensures r.Exhausted? ==> |previous| == |pool|
    ensures r.EmptyPool? <==> |pool| == 0
  {
    if |pool| == 0 then EmptyPool
    else if |draws| == 0 then OutOfDraws
    else Redraw(pool, previous, pool[draws[0]], draws[1..])
  }

  /** The selection loop as the handler runs it, one membership scan per iteration. */
  method ChooseQuestion(pool: seq<Question>, previous: seq<int>, draws: seq<nat>) returns (r: Selection)
    requires DrawsFit(draws, |pool|)
    ensures r == SelectQuestion(pool, previous, draws)
    ensures r.Drawn? ==> r.question in pool && r.question.id !in previous
  {
    if |pool| == 0 {
      return EmptyPool;
    }
    if |draws| == 0 {
      return OutOfDraws;
    }
    var question := pool[draws[0]];
    var k := 1;
    var used := CheckInPrevious(previous, question.id);
    while used
      invariant 1 <= k <= |draws|
      invariant question in pool
      invariant used <==> question.id in previous
      invariant SelectQuestion(pool, previous, draws) == Redraw(pool, previous, question, draws[k..])
      decreases |draws| - k
    {
      if k == |draws| {
        return OutOfDraws;
      }
      assert draws[k..][1..] == draws[k + 1..];
      question := pool[draws[k]];
      k := k + 1;
      if |previous| == |pool| {
        return Exhausted;
      }
      used := CheckInPrevious(previous, question.id);
    }
    r := Drawn(question);
  }

  /** Position of the first draw whose question was not served; |draws| when there is none. */
  function FirstFresh(pool: seq<Question>, previous: seq<int>, draws: seq<nat>): (j: nat)
    requires DrawsFit(draws, |pool|)
    ensures j <= |draws|
    ensures j < |draws| ==> pool[draws[j]].id !in previous
    ensures forall k :: 0 <= k < j ==> pool[draws[k]].id in previous
    decreases |draws|
  {
    if |draws| == 0 then 0
    else if pool[draws[0]].id !in previous then 0
    else 1 + FirstFresh(pool, previous, draws[1..])
  }

  lemma {:induction false} RedrawTakesFirstFresh(pool: seq<Question>, previous: seq<int>, question: Question, draws: seq<nat>)
    requires DrawsFit(draws, |pool|)
    requires question in pool
    requires question.id in previous
    requires |previous| != |pool|
    ensures var j := FirstFresh(pool, previous, draws);
            Redraw(pool, previous, question, draws) == if j < |draws| then Drawn(pool[draws[j]]) else OutOfDraws
    decreases |draws|
  {
    if |draws| > 0 && pool[draws[0]].id in previous {
      RedrawTakesFirstFresh(pool, previous, pool[draws[0]], draws[1..]);
    }
  }

  /**
   Unless as many ids were served as the pool holds, the loop returns the
   question of the first unserved draw, and keeps drawing until there is one.
   */
  lemma SelectTakesFirstFresh(pool: seq<Question>, previous: seq<int>, draws: seq<nat>)
    requires DrawsFit(draws, |pool|)
    requires |pool| > 0
    requires |previous| != |pool|
    ensures var j := FirstFresh(pool, previous, draws);
            SelectQuestion(pool, previous, draws) == if j < |draws| then Drawn(pool[draws[j]]) else OutOfDraws
  {
    if |draws| > 0 && pool[draws[0]].id in previous {
      RedrawTakesFirstFresh(pool, previous, pool[draws[0]], draws[1..]);
    }
  }

  /**
   The exhausted response comes exactly when the first draw was already served,
   a second draw happens, and as many ids were served as the pool holds.
   */
  lemma ExhaustedIff(pool: seq<Question>, previous: seq<int>, draws: seq<nat>)
    requires DrawsFit(draws, |pool|)
    ensures SelectQuestion(pool, previous, draws) == Exhausted <==>
              && |pool| > 0
              && |draws| >= 2
              && pool[draws[0]].id in previous
              && |previous| == |pool|
  {
  }

  /**
   When every pool question was served but the served list is not as long as
   the pool (a repeated id, or an id from another category), no sequence of
   draws ever ends the loop.
   */
  lemma NeverAnswersWhenAllServed(pool: seq<Question>, previous: seq<int>, draws: seq<nat>)
    requires DrawsFit(draws, |pool|)
    requires |pool| > 0
    requires forall q :: q in pool ==> q.id in previous
    requires |previous| != |pool|
    ensures SelectQuestion(pool, previous, draws) == OutOfDraws
  {
    SelectTakesFirstFresh(pool, previous, draws);
  }

  /** A one-question pool whose id was served twice: the loop spins on every draw sequence. */
  lemma RepeatedServedIdSpins(draws: seq<nat>)
    requires DrawsFit(draws, 1)
    ensures SelectQuestion([Question(1, "Q", "A", 1, 1)], [1, 1], draws) == OutOfDraws
  {
    NeverAnswersWhenAllServed([Question(1, "Q", "A", 1, 1)], [1, 1], draws);
  }

  /**
   A two-question pool, one question served, plus an id from elsewhere in the
   served list: the exhausted response comes although question 2 was never served.
   */
  lemma ForeignServedIdEndsQuizEarly(draws: seq<nat>)
    requires DrawsFit(draws, 2)
    requires |draws| >= 2 && draws[0] == 0
    ensures var pool := [Question(1, "Q1", "A1", 1, 3), Question(2, "Q2", "A2", 1, 3)];
            && SelectQuestion(pool, [1, 5], draws) == Exhausted
            && pool[1].id !in [1, 5]
  {
  }

  function NotServed(previous: seq<int>): Question -> bool {
    (q: Question) => q.id !in previous
  }

  /** The pool questions whose ids were not served yet. */
  function Unserved(pool: seq<Question>, previous: seq<int>): (unserved: seq<Question>)
    ensures forall q :: q in unserved <==> q in pool && q.id !in previous
  {
    Filter(pool, NotServed(previous))
  }

  /**
   The corrected selection: draw among the unserved questions only,
   and end the quiz exactly when none is left (an empty pool included).
   */
  function SelectFresh(pool: seq<Question>, previous: seq<int>, draw: nat): (r: Selection)
    requires draw < |Unserved(pool, previous)| || |Unserved(pool, previous)| == 0
    ensures r.Drawn? || r.Exhausted?
    ensures r.Drawn? ==> r.question in pool && r.question.id !in previous
    ensures r.Exhausted? <==> forall q :: q in pool ==> q.id in previous
  {
    var left := Unserved(pool, previous);
    if |left| == 0 then Exhausted
    else
      assert left[0] in left;
      Drawn(left[draw])
  }
}
